=== FILE: README.md ===
# quiethn story resolver and cache, modelled in Dafny

quiethn serves the current top stories of the Hacker News API as a web page.
This project models its core in `main.go`:

- the story filter (`isStory`) and the derivation of a story's display host
  (`parseHnItem`);
- the aggregation of concurrently fetched items (`getStories`), which sorts
  the results by their position in the requested id list, then drops failed
  fetches and non-stories;
- the over-fetch loop (`getTopStories`);
- the single-entry cache with a one-second expiry (`getCachedStories`).

The record type `Item` of `hn/client.go` is mirrored in `hn.dfy`.

Everything the core reads from outside is a parameter. This covers the
top-ids request, the fetch of each item and the URL library's hostname. All
three are bundled in `Stories.Upstream`: an optional id list, a function
from id to optional item, and a function from link to optional hostname.
Clock readings are integers, in nanoseconds from Go's zero time. A Go panic
from an out-of-range slice is the outcome `Err(SliceOutOfRange)`.

Files and modules:

| file | module | models |
|---|---|---|
| wrappers.dfy | Wrappers | `Option`, `Result` |
| hn.dfy | Hn | `hn.Item` |
| stories.dfy | Stories | `item`, `isStory`, `parseHnItem`, `strings.TrimPrefix` |
| aggregate.dfy | Aggregate | `getStories`: messages, sort by index, filter; the order-free reference `StoriesOf` |
| top_stories.dfy | TopStories | `getTopStories` as written, and corrected |
| cache.dfy | Cache | `getCachedStories` |

`getStories` is modelled as follows. Each fetch task sends one message
`Msg(idx, res)`. The messages arrive in any order, which is any sequence with
the same multiset as the dispatch-ordered messages. `Aggregate.GetStories`
sorts them and collects the stories. Its contract says the result equals
`StoriesOf(ids)`, which involves no arrival order. The sort is a concrete
insertion sort. `SortedPermutationUnique` shows that the result is the same
for every sort, because the indices are distinct. For this reason the models
of `getTopStories` use `StoriesOf` for each `getStories` call.

Three behaviours of the code shape the model of `getTopStories`:

- The window is `(numStories - len(stories)) * 5 / 4`, rounded down.
- A window that runs past the capacity of the decoded id list is a panic.
  The model takes that capacity to be the list's length (see Left out).
- The result is recomputed from the first `numStories` ids and resliced to
  `numStories` within the capacity of that slice (see Findings).

A Go slice expression `s[:n]` is in range up to the capacity of `s`, and the
positions past its length hold zero values. `getStories` builds its result
by `append` starting from a nil slice, so an empty result has capacity zero
and a non-empty one has its length plus whatever spare room `append` left.
That spare room depends on the runtime's growth policy; the model takes it
as the parameter `spare` of `TopStories.GetTopStoriesAsWritten`, and
`TopStories.Reslice` returns the stories followed by zero-valued items
(`Stories.ZeroStory`).

## Model

| member | source | states |
|---|---|---|
| Stories.TrimPrefix | main.go:145 | if the hostname starts with the prefix, the prefix followed by the result gives back the hostname; otherwise the hostname is unchanged; the result is always a suffix of it |
| Stories.TrimPrefixRemovesOnce | main.go:145 | only one leading prefix is removed: `www.www.x` becomes `www.x` |
| Stories.ParseHnItem | main.go:141-148 | the upstream item is copied unchanged; a parse failure gives an empty host; otherwise the host is the hostname minus one leading "www." if present, else the hostname, and it is always a suffix of the hostname |
| Stories.HostExamples | main.go:141-148 | "www.example.com" gives "example.com", "sub.example.com" stays as it is, an unparsable link gives "" |
| Stories.IsStory | main.go:137-139 | a story is never the zero-valued item |
| Stories.FilterCases | main.go:137-139 | an item without a link is rejected, a kind other than "story" is rejected, a linked "story" is accepted |
| Stories.QualificationIgnoresHost | main.go:137-148 | a parsed item is a story iff the upstream item has kind "story" and a non-empty link, so a link that fails to parse never excludes it |
| Aggregate.Fetch | main.go:109-116 | a task yields nothing exactly when its fetch fails, and otherwise the parsed item, whose upstream fields are those fetched |
| Aggregate.Collect | main.go:125-134 | the filtering loop keeps no more entries than messages, only stories, and only items some message carried |
| Aggregate.Insert | main.go:122-124 | inserting into an index-sorted message list keeps it sorted and adds exactly that message |
| Aggregate.SortByIdx | main.go:122-124 | the sorted messages are ordered by index and are a permutation of the arrived ones |
| Aggregate.SortedPermutationUnique | main.go:122-124 | two index-sorted lists holding the same messages are equal when the indices are distinct, so any sort algorithm gives the same order |
| Aggregate.SortRestoresDispatchOrder | main.go:118-124 | sorting any arrival order by index gives back the dispatch order |
| Aggregate.CollectDispatched | main.go:125-134 | the filtering loop over messages in dispatch order yields the reference list of qualifying stories |
| Aggregate.StoriesOf | main.go:125-134 | the reference list is no longer than the id list and holds only stories |
| Aggregate.QualifyingIndices | main.go:126-133 | the contributing positions are increasing, in range, and include every position whose fetch succeeded with a story |
| Aggregate.StoriesOfSelects | main.go:126-133 | position k of the output is the parsed item at the k-th qualifying position |
| Aggregate.GetStories | main.go:101-135 | for every arrival order the output equals the order-free reference, holds only stories and is no longer than the id list |
| Aggregate.GetStoriesSelection | main.go:101-135 | the output is an order-preserving selection of the ids' items: position i contributes iff its fetch succeeded and it is a story |
| Aggregate.StoriesOfConcat | main.go:92-96 | the rounds over consecutive windows add up to one round over their concatenation |
| Aggregate.AllQualifyIff | main.go:97-98 | the output keeps the full length of the id list iff every id is fetched and is a story |
| TopStories.Need | main.go:93 | while stories are missing, the window is at least the shortfall and at least one, so the cursor advances |
| TopStories.OverFetchLoop | main.go:90-96 | with `numStories` stories in hand the loop stops where it is; a failure is always a panic; otherwise the loop ends with the cursor in range and strictly advanced, and with at least `numStories` stories, namely those of the ids before the cursor |
| TopStories.OverFetchPanicWitness | main.go:92-94 | the loop panics only at a cursor it reaches through windows that each fitted in the list while it was short of stories, where it is still short of `numStories` stories and the next window runs past the end of the list |
| TopStories.FirstWindowSuffices | main.go:92-96 | when the first `numStories` ids all qualify, the first window holds at least `numStories` stories |
| TopStories.GrownCap | main.go:125-134 | the capacity of `getStories`' result is at least its length, and zero when nothing was appended |
| TopStories.Reslice | main.go:98 | `s[:n]` is in range iff `0 <= n <= cap`; it has length `n`, agrees with `s` on `s`'s positions and holds zero values past them |
| TopStories.GetTopStoriesAsWritten | main.go:84-98 | a failed top-ids request gives that error, every other failure is a panic, and a result always has length `numStories` |
| TopStories.AsWrittenSucceeds | main.go:84-98 | when the first window fits and the first `numStories` ids qualify, the result is their stories |
| TopStories.AsWrittenFailsBeyondCapacity | main.go:97-98 | when `numStories` exceeds the id list or the capacity of the re-resolved prefix's stories, the call panics |
| TopStories.AsWrittenOutcome | main.go:84-98 | a failed top-ids request gives that error; a success needs the first window to fit and `numStories` within the capacity of the re-resolved prefix, and returns that prefix's stories padded with zero-valued items to `numStories`; it succeeds whenever the first window fits and the first `numStories` ids all qualify, and with no spare capacity only then |
| TopStories.FillLoop | main.go:90-96 | corrected loop with windows clipped to the list: the cursor stays in range, the stories are those before the cursor, and a short result means the list was used up |
| TopStories.GetTopStories | main.go:84-98 | corrected resolver: a failed top-ids request gives that error; success iff at least `numStories` qualifying stories exist; the result is the first `numStories` of them in ranking order; otherwise InsufficientStories |
| TopStories.CorrectedAgreesWhereAsWrittenSucceeds | main.go:90-98 | wherever the code as written succeeds, the corrected resolver succeeds, and the two results are equal iff the first `numStories` ids all qualify |
| TopStories.RecomputedPrefixDropsLoopResult | main.go:97-98 | for any two-id list whose first id is not a story and whose second is, with one story wanted: the code as written fails, the corrected resolver returns the second id's story |
| TopStories.ZeroPaddedPage | main.go:97-98 | whenever the first window holds enough stories, the first `numStories` ids do not, and the capacity reaches `numStories`: the code as written succeeds with a page whose last entry is the zero-valued item, not a story, while the corrected page holds only stories |
| TopStories.WindowOverrunsShortList | main.go:93-94 | whenever every id is a story and the list, with no capacity past its length, is at least `numStories` long but shorter than the first window (four of four, say): the code as written fails, the corrected resolver returns `numStories` stories |
| Cache.GetCachedStories | main.go:69-82 | for any resolver outcome: before expiry the state is unchanged and the cache is returned; on expiry a failure leaves the state unchanged and is returned, and a success is stored, expiring one second after the later clock reading; a success always returns the stored stories, and the state changes only on a successful refresh |
| Cache.InitialValid | main.go:63-67 | the empty, zero-expiry state of a fresh process is valid |
| Cache.ValidPreserved | main.go:72-81 | with the corrected resolver each call keeps the entry valid, and every successful reply is exactly `numStories` stories |
| Cache.AsWrittenCachesNonStory | main.go:75-81 | with the code as written, under the conditions of `ZeroPaddedPage` an expired entry is refreshed with a page holding a non-story, so the entry is no longer valid |
| Cache.FailureKeepsEntry | main.go:75-78 | with either resolver, a failed top-ids request on an expired entry keeps the entry and returns the error |
| Cache.RefreshThenHit | main.go:72-80 | after a successful refresh the entry is fresh at the instant the expiry was checked (with a monotone clock), and a call before the new expiration is a hit with the same reply and state, whatever the resolver would return |

## Left out

- Double send on fetch error (main.go:112-115): a failed fetch sends an error message and then also a message carrying whatever item `GetItem` returned (the zero item on a transport error). With both, the `len(ids)` reads can miss another index's message. The model keeps the intended one message per index. `IsArrivalOrder` requires the arrivals to be a permutation of the dispatched messages, and the double send is not reproduced.
- HTTP and JSON decoding in hn/client.go (`TopItems`, `GetItem`): this is network I/O. Its results are the inputs `Upstream.topItems` and `Upstream.getItem`.
- Goroutines and the buffered channel: concurrency plumbing. Only the order in which messages are read is modelled.
- `url.Parse` and `Hostname`: library code, modelled by the opaque function `Upstream.hostname`.
- `sync.Mutex`: each call of `Cache.GetCachedStories` is one atomic transition. The lock itself is not modelled.
- `time.Now`: clock readings are the parameters `now` and `later`. `time.Time`, and the saturation of `Sub`, are integers here; saturation keeps the sign of a difference, so the expiry test is unchanged.
- Changes upstream during one resolution: upstream is a fixed snapshot. Re-fetching an id gives the same answer, and this matters for the second fetch of the first ids at main.go:97.
- Slicing the id list beyond its length (main.go:94, 97): Go allows it up to the capacity of the array the JSON decoder filled, which usually has spare room; positions past the length read as id 0. The model treats a window or prefix ending past the list length as a panic, so a list with spare capacity can succeed in Go where the model panics. The final reslice at main.go:98 does model capacity.
- TopStories.GetTopStoriesAsWritten: the spare capacity `append` leaves is the parameter `spare`, not Go's growth policy; the lemmas hold for every value of it.
- TopStories.Need: does not model 64-bit overflow of `(numStories - len(stories)) * 5`, which needs a request near 2^61 stories.
- Bounds on ids fetched: no contract bounds how many ids the corrected loop consumes before it stops.
- The cache key: a hit serves the stored list whatever `numStories` the caller passes. The source does the same, and the server always passes the same flag value.
- `main`, `handler`, flag parsing, template rendering and render timing: CLI and HTTP plumbing.
- Cache.ValidPreserved: stated for the corrected resolver only. With the code as written the entry can hold a zero-valued item (`Cache.AsWrittenCachesNonStory`).

## Findings

| source | as written | input that shows it | evidently intended | confidence | as-written member | corrected member |
|---|---|---|---|---|---|---|
| main.go:97-98 | the loop's stories are discarded. The first `numStories` ids are fetched again and the result is resliced to `numStories`. When none of those ids is a story the slice is nil and this panics | ids `[1, 2]`, id 1 a job posting, id 2 a linked story, one story wanted | return the first `numStories` stories the loop gathered | high, not executed | TopStories.RecomputedPrefixDropsLoopResult | TopStories.GetTopStories |
| main.go:97-98 | when some of the first `numStories` ids are not stories, the reslice reaches past the length into spare capacity, or panics beyond it. Within capacity the page ends in zero-valued items, and the cache keeps them for a second | ids `[a, b, c, d, e]`, `b` a job posting, the others linked stories, four wanted, and three stories re-resolved into a slice of capacity four: the page is `[a, c, d]` plus one zero item | return the first `numStories` stories the loop gathered | high, not executed | TopStories.ZeroPaddedPage | TopStories.GetTopStories |
| main.go:93-94 | the window `ids[at:at+need]` is sliced unclipped. It panics once the window runs past the capacity of the decoded list, even when the ids left hold enough stories | four ids, all linked stories, decoded into a list of capacity four, four wanted: the window is 5 | clip the window to the end of the list and stop when the list is used up | high, not executed | TopStories.WindowOverrunsShortList | TopStories.GetTopStories |

The model of the code as written is `TopStories.GetTopStoriesAsWritten`,
with its outcome stated by `TopStories.AsWrittenOutcome`.
`Cache.GetCachedStories` takes the resolver's outcome as a parameter, so its
contract holds with either resolver; `Cache.AsWrittenCachesNonStory` and
`Cache.ValidPreserved` contrast the two.

=== FILE: aggregate.dfy ===
/** Order-restoring aggregation of concurrently fetched items (main.go, getStories). */
module Aggregate {
  import opened Wrappers
  import opened Hn
  import opened Stories

  /** The message a fetch task sends back: the position of its id in the
      requested list and, unless the fetch failed, the parsed item. */
  datatype Msg = Msg(idx: int, res: Option<Story>)

  /** What one fetch task produces for `id`: nothing on a failed fetch,
      otherwise the parsed item. */
  function Fetch(up: Upstream, id: int): (r: Option<Story>)
    ensures r.None? <==> up.getItem(id).None?
    ensures r.Some? ==> r.value.item == up.getItem(id).value
  {
    match up.getItem(id)
    case None => None
    case Some(it) => Some(ParseHnItem(it, up.hostname))
  }

  /** A task result that ends up in the output: fetched and a story. */
  predicate Keeps(o: Option<Story>) {
    o.Some? && IsStory(o.value)
  }

  /** The id is fetched successfully and its item qualifies. */
  predicate Qualifies(up: Upstream, id: int) {
    Keeps(Fetch(up, id))
  }

  /** One message per dispatched task, listed in dispatch order. */
  function Dispatched(ids: seq<int>, up: Upstream): seq<Msg> {
    seq(|ids|, i requires 0 <= i < |ids| => Msg(i, Fetch(up, ids[i])))
  }

  /** The messages as read from the channel: any interleaving of the
      dispatched ones, each exactly once. */
  predicate IsArrivalOrder(arrivals: seq<Msg>, ids: seq<int>, up: Upstream) {
    multiset(arrivals) == multiset(Dispatched(ids, up))
  }

  predicate SortedByIdx(ms: seq<Msg>) {
    forall i, j :: 0 <= i < j < |ms| ==> ms[i].idx <= ms[j].idx
  }

  predicate StrictlySortedByIdx(ms: seq<Msg>) {
    forall i, j :: 0 <= i < j < |ms| ==> ms[i].idx < ms[j].idx
  }

  /** Inserts `m` into an index-sorted list of messages. */
  function Insert(m: Msg, ms: seq<Msg>): (r: seq<Msg>)
    requires SortedByIdx(ms)
    ensures SortedByIdx(r)
    ensures multiset(r) == multiset(ms) + multiset{m}
    ensures forall x :: x in r ==> x == m || x in ms
  {
    if ms == [] then [m]
    else if m.idx <= ms[0].idx then [m] + ms
    else
      var rest := Insert(m, ms[1..]);
      assert ms == [ms[0]] + ms[1..];
      assert forall x :: x in rest ==> ms[0].idx <= x.idx;
      [ms[0]] + rest
  }

  /** The sort by message index (sort.Slice with `idx` as the key). */
  function SortByIdx(ms: seq<Msg>): (r: seq<Msg>)
    ensures SortedByIdx(r)
    ensures multiset(r) == multiset(ms)
  {
    if ms == [] then []
    else
      assert ms == [ms[0]] + ms[1..];
      Insert(ms[0], SortByIdx(ms[1..]))
  }

  /** The filtering loop over the sorted messages: skip failed fetches,
      append the stories in order. */
  function Collect(ms: seq<Msg>): (r: seq<Story>)
    ensures |r| <= |ms|
    ensures forall s :: s in r ==> IsStory(s)
    ensures forall s :: s in r ==> exists m :: m in ms && m.res == Some(s)
  {
    if ms == [] then []
    else
      var last := ms[|ms| - 1];
      Collect(ms[..|ms| - 1]) + (if Keeps(last.res) then [last.res.value] else [])
  }

  /** Reference result, free of any arrival order: the qualifying stories of
      `ids`, in the order of `ids`. */
  function StoriesOf(ids: seq<int>, up: Upstream): (r: seq<Story>)
    ensures |r| <= |ids|
    ensures forall s :: s in r ==> IsStory(s)
  {
    if ids == [] then []
    else
      var last := ids[|ids| - 1];
      StoriesOf(ids[..|ids| - 1], up) + (if Qualifies(up, last) then [Fetch(up, last).value] else [])
  }

  /** The positions of `ids` that contribute to the output, increasing. */
  ghost function QualifyingIndices(ids: seq<int>, up: Upstream): (r: seq<nat>)
    ensures forall k :: 0 <= k < |r| ==> r[k] < |ids| && Qualifies(up, ids[r[k]])
    ensures forall k, l :: 0 <= k < l < |r| ==> r[k] < r[l]
    ensures forall i :: 0 <= i < |ids| && Qualifies(up, ids[i]) ==> i in r
  {
    if ids == [] then []
    else
      var n := |ids| - 1;
      var pre := QualifyingIndices(ids[..n], up);
      assert forall i :: 0 <= i < n ==> ids[..n][i] == ids[i];
      if Qualifies(up, ids[n]) then pre + [n] else pre
  }

  /** getStories: sort the arrived messages by index, then collect. Whatever
      the arrival order, the result is the reference list. */
  function GetStories(ids: seq<int>, up: Upstream, arrivals: seq<Msg>): (r: seq<Story>)
    requires IsArrivalOrder(arrivals, ids, up)
    ensures r == StoriesOf(ids, up)
    ensures |r| <= |ids|
    ensures forall s :: s in r ==> IsStory(s)
  {
    SortRestoresDispatchOrder(arrivals, ids, up);
    CollectDispatched(ids, up);
    Collect(SortByIdx(arrivals))
  }

  /** The first elements of two index-sorted lists holding the same
      messages agree when the keys of the second are distinct. */
  lemma SortedPermutationHead(a: seq<Msg>, b: seq<Msg>)
    requires SortedByIdx(a) && StrictlySortedByIdx(b)
    requires multiset(a) == multiset(b) && |a| > 0
    ensures |b| > 0 && a[0] == b[0]
  {
    assert a[0] in multiset(b);
    var j :| 0 <= j < |b| && b[j] == a[0];
    assert b[0] in multiset(a);
    var i :| 0 <= i < |a| && a[i] == b[0];
    assert a[0].idx <= a[i].idx;
    assert b[0].idx <= b[j].idx;
    assert j == 0;
  }

  /** Two index-sorted lists with the same messages are equal when the keys
      of one of them are distinct. */
  lemma {:induction false} SortedPermutationUnique(a: seq<Msg>, b: seq<Msg>)
    requires SortedByIdx(a) && StrictlySortedByIdx(b)
    requires multiset(a) == multiset(b)
    ensures a == b
    decreases |a|
  {
    if a == [] {
      assert |b| == |multiset(b)| == 0;
    } else {
      SortedPermutationHead(a, b);
      assert a == [a[0]] + a[1..];
      assert b == [b[0]] + b[1..];
      assert multiset(a[1..]) == multiset(a) - multiset{a[0]};
      assert multiset(b[1..]) == multiset(b) - multiset{b[0]};
      SortedPermutationUnique(a[1..], b[1..]);
    }
  }

  /** Sorting any arrival order by index restores the dispatch order. */
  lemma SortRestoresDispatchOrder(arrivals: seq<Msg>, ids: seq<int>, up: Upstream)
    requires IsArrivalOrder(arrivals, ids, up)
    ensures SortByIdx(arrivals) == Dispatched(ids, up)
  {
    SortedPermutationUnique(SortByIdx(arrivals), Dispatched(ids, up));
  }

  /** Collecting the messages in dispatch order yields the reference list. */
  lemma {:induction false} CollectDispatched(ids: seq<int>, up: Upstream)
    ensures Collect(Dispatched(ids, up)) == StoriesOf(ids, up)
  {
    if ids != [] {
      var n := |ids| - 1;
      assert Dispatched(ids, up)[..n] == Dispatched(ids[..n], up);
      CollectDispatched(ids[..n], up);
    }
  }

  /** The reference list distributes over concatenation of id lists: rounds
      over consecutive windows add up to one round over the whole. */
  lemma {:induction false} StoriesOfConcat(a: seq<int>, b: seq<int>, up: Upstream)
    ensures StoriesOf(a + b, up) == StoriesOf(a, up) + StoriesOf(b, up)
    decreases |b|
  {
    if b == [] {
      assert a + b == a;
    } else {
      var n := |b| - 1;
      assert (a + b)[..|a + b| - 1] == a + b[..n];
      StoriesOfConcat(a, b[..n], up);
    }
  }

  /** The reference list selects exactly the qualifying positions, in order. */
  lemma {:induction false} StoriesOfSelects(ids: seq<int>, up: Upstream)
    ensures |StoriesOf(ids, up)| == |QualifyingIndices(ids, up)|
    ensures forall k :: 0 <= k < |StoriesOf(ids, up)| ==>
      StoriesOf(ids, up)[k] == Fetch(up, ids[QualifyingIndices(ids, up)[k]]).value
  {
    if ids != [] {
      var n := |ids| - 1;
      StoriesOfSelects(ids[..n], up);
    }
  }

  /** Every id yields a story exactly when the list keeps its full length. */
  lemma {:induction false} AllQualifyIff(ids: seq<int>, up: Upstream)
    ensures |StoriesOf(ids, up)| == |ids| <==> forall i :: 0 <= i < |ids| ==> Qualifies(up, ids[i])
  {
    if ids != [] {
      var n := |ids| - 1;
      AllQualifyIff(ids[..n], up);
      assert forall i :: 0 <= i < n ==> ids[..n][i] == ids[i];
    }
  }

  /** getStories returns, whatever the arrival order, an order-preserving
      selection of the requested ids: position i contributes iff its fetch
      succeeded and its item is a story. */
  lemma GetStoriesSelection(ids: seq<int>, up: Upstream, arrivals: seq<Msg>)
    requires IsArrivalOrder(arrivals, ids, up)
    ensures var r := GetStories(ids, up, arrivals);
      var qi := QualifyingIndices(ids, up);
      && |r| == |qi| <= |ids|
      && (forall k :: 0 <= k < |r| ==> r[k] == Fetch(up, ids[qi[k]]).value)
      && (forall k, l :: 0 <= k < l < |qi| ==> qi[k] < qi[l])
      && (forall i :: i in qi <==> 0 <= i < |ids| && Qualifies(up, ids[i]))
  {
    StoriesOfSelects(ids, up);
  }
}

=== FILE: cache.dfy ===
/** The single-entry expiring cache of main.go (getCachedStories). Clock
    readings are integers counting nanoseconds from Go's zero time, so every
    real reading is positive and the zero expiration of a fresh process is
    always in the past. Each call is one atomic transition, as the mutex
    held for the whole call makes it. */
module Cache {
  import opened Wrappers
  import opened Stories
  import opened Aggregate
  import opened TopStories

  /** time.Second, in nanoseconds: how long a refreshed entry stays fresh. */
  const Second := 1_000_000_000

  /** The guarded pair: the cached stories and the instant they expire. */
  datatype CacheState = CacheState(cache: seq<Story>, expiration: int)

  /** The state of a fresh process: no stories, zero expiration time. */
  const Initial := CacheState([], 0)

  /** The state after a call, and what the call returned. */
  datatype Step = Step(state: CacheState, reply: Result<seq<Story>, Failure>)

  /** One call at clock reading `now`; `later` is the reading taken after
      the resolver returns and `res` is what the resolver returns when it
      is consulted (main.go consults the code as written, modelled by
      GetTopStoriesAsWritten; GetTopStories is the corrected one). A fresh
      entry is served without consulting upstream; an expired one is
      replaced on success and kept on failure. */
  function GetCachedStories(st: CacheState, now: int, later: int, res: Result<seq<Story>, Failure>): (s: Step)
    ensures now < st.expiration ==> s == Step(st, Ok(st.cache))
    ensures st.expiration <= now && res.Err? ==> s == Step(st, res)
    ensures st.expiration <= now && res.Ok? ==>
      s == Step(CacheState(res.value, later + Second), res)
    ensures s.reply.Err? ==> s.state == st
    ensures s.reply.Ok? ==> s.reply.value == s.state.cache
    ensures s.state != st ==> st.expiration <= now && res.Ok?
  {
    if now < st.expiration then Step(st, Ok(st.cache))
    else
      match res
      case Err(e) => Step(st, Err(e))
      case Ok(stories) => Step(CacheState(stories, later + Second), Ok(stories))
  }

  /** The entry holds a full page of stories unless it has never been
      filled. */
  predicate Valid(st: CacheState, numStories: int) {
    st.expiration <= 0 || (|st.cache| == numStories && forall s :: s in st.cache ==> IsStory(s))
  }

  /** With the corrected resolver every call keeps the entry valid, and
      every successful reply is exactly `numStories` linked stories. */
  lemma ValidPreserved(st: CacheState, numStories: int, now: int, later: int, up: Upstream)
    requires Valid(st, numStories)
    requires 0 <= now <= later
    ensures Valid(GetCachedStories(st, now, later, GetTopStories(up, numStories)).state, numStories)
    ensures var s := GetCachedStories(st, now, later, GetTopStories(up, numStories));
      s.reply.Ok? ==> |s.reply.value| == numStories && forall x :: x in s.reply.value ==> IsStory(x)
  {
    var res := GetTopStories(up, numStories);
    if st.expiration <= now && res.Ok? {
      var all := StoriesOf(up.topItems.value, up);
      assert forall x :: x in all[..numStories] ==> x in all;
    }
  }

  /** With the code as written the entry can be refreshed with a page that
      ends in a zero-valued item, which is not a story: under the
      conditions of TopStories.ZeroPaddedPage an expired entry becomes
      invalid and is served as such until it expires. */
  lemma AsWrittenCachesNonStory(st: CacheState, now: int, later: int, up: Upstream,
                                ids: seq<int>, numStories: int, spare: nat)
    requires st.expiration <= now && 0 <= later
    requires up.topItems == Some(ids)
    requires 0 < numStories && numStories * 5 / 4 <= |ids|
    requires |StoriesOf(ids[..numStories * 5 / 4], up)| >= numStories
    requires |StoriesOf(ids[..numStories], up)| < numStories
    requires numStories <= GrownCap(|StoriesOf(ids[..numStories], up)|, spare)
    ensures var s := GetCachedStories(st, now, later, GetTopStoriesAsWritten(up, numStories, spare));
      s.reply.Ok? && !Valid(s.state, numStories)
  {
    ZeroPaddedPage(up, ids, numStories, spare);
    var page := GetTopStoriesAsWritten(up, numStories, spare).value;
    assert page[numStories - 1] in page;
  }

  /** A failed top-ids request on an expired entry keeps the entry and
      returns the error, with either resolver. */
  lemma FailureKeepsEntry(st: CacheState, now: int, later: int, up: Upstream, numStories: int, spare: nat)
    requires st.expiration <= now && up.topItems.None?
    ensures GetCachedStories(st, now, later, GetTopStories(up, numStories)) == Step(st, Err(TopItemsFailed))
    ensures GetCachedStories(st, now, later, GetTopStoriesAsWritten(up, numStories, spare)) == Step(st, Err(TopItemsFailed))
  {
  }

  lemma InitialValid(numStories: int)
    ensures Valid(Initial, numStories)
  {
  }

  /** After a successful refresh the entry is fresh at the instant the
      expired entry was seen, and any call before the new expiration is a
      hit that returns the same stories, whatever the resolver would now
      return. */
  lemma RefreshThenHit(st: CacheState, now: int, later: int, res: Result<seq<Story>, Failure>,
                       now2: int, later2: int, res2: Result<seq<Story>, Failure>)
    requires st.expiration <= now
    requires res.Ok?
    requires now2 < later + Second
    ensures var first := GetCachedStories(st, now, later, res);
      now <= later ==> now < first.state.expiration
    ensures var first := GetCachedStories(st, now, later, res);
      var second := GetCachedStories(first.state, now2, later2, res2);
      second == Step(first.state, first.reply)
  {
  }
}

=== FILE: hn.dfy ===
/** The upstream API's record type (hn/client.go). */
module Hn {

  /** One item as decoded from the upstream API. The JSON fields `type` and
      `by` are called `kind` and `author` here because both are Dafny
      keywords. Upstream fills at most one of `text` and `url`; nothing in
      the model relies on it. */
  datatype Item = Item(
    id: int,
    author: string,
    descendants: int,
    kids: seq<int>,
    score: int,
    time: int,
    title: string,
    kind: string,
    text: string,
    url: string)

  /** Go's zero value of Item: what a slice exposes past its length. */
  const ZeroItem := Item(0, "", 0, [], 0, 0, "", "", "", "")
}

=== FILE: stories.dfy ===
/** The story filter and the host derivation of main.go (isStory, parseHnItem). */
module Stories {
  import opened Wrappers
  import opened Hn

  /** main.go's `item`: the upstream record, unchanged, plus the display host
      of its link. */
  datatype Story = Story(item: Item, host: string)

  /** Everything the resolver reads from outside the process, frozen for the
      duration of one resolution: the result of the top-ids request, the
      result of fetching each id, and the URL library's hostname of a link
      (None when the link does not parse). */
  datatype Upstream = Upstream(
    topItems: Option<seq<int>>,
    getItem: int -> Option<Item>,
    hostname: string -> Option<string>)

  /** Go's zero value of `item`. It is not a story. */
  const ZeroStory := Story(ZeroItem, "")

  const StoryKind := "story"
  const WwwPrefix := "www."

  /** A displayable story: of kind "story" and carrying an external link. */
  predicate IsStory(s: Story)
    ensures IsStory(s) ==> s != ZeroStory
  {
    s.item.kind == StoryKind && s.item.url != ""
  }

  /** Go's strings.TrimPrefix: drop `prefix` once if `s` starts with it. */
  function TrimPrefix(s: string, prefix: string): (r: string)
    ensures prefix <= s ==> prefix + r == s
    ensures !(prefix <= s) ==> r == s
    ensures |r| <= |s| && r == s[|s| - |r|..]
  {
    if prefix <= s then s[|prefix|..] else s
  }

  /** Copies the upstream item and derives its host: the link's hostname
      without one leading "www.", or "" when the link does not parse. */
  function ParseHnItem(it: Item, hostname: string -> Option<string>): (r: Story)
    ensures r.item == it
    ensures hostname(it.url).None? ==> r.host == ""
    ensures hostname(it.url).Some? ==>
      var h := hostname(it.url).value;
      && |r.host| <= |h|
      && r.host == h[|h| - |r.host|..]
      && (WwwPrefix <= h ==> WwwPrefix + r.host == h)
      && (!(WwwPrefix <= h) ==> r.host == h)
  {
    var host := match hostname(it.url)
      case None => ""
      case Some(h) => TrimPrefix(h, WwwPrefix);
    Story(it, host)
  }

  /** Exactly one prefix is removed: a doubled prefix leaves one copy. */
  lemma TrimPrefixRemovesOnce(prefix: string, t: string)
    ensures TrimPrefix(prefix + prefix + t, prefix) == prefix + t
    ensures TrimPrefix(prefix + t, prefix) == t
  {
  }

  /** Whether an item qualifies depends only on the upstream record: the host
      derivation (including a link that fails to parse) never excludes it. */
  lemma QualificationIgnoresHost(it: Item, hostname: string -> Option<string>)
    ensures IsStory(ParseHnItem(it, hostname)) <==> it.kind == StoryKind && it.url != ""
  {
  }

  /** The filter's three cases: text posts and other kinds are rejected,
      linked stories are kept. */
  lemma FilterCases(s: Story)
    ensures s.item.url == "" ==> !IsStory(s)
    ensures s.item.kind != StoryKind ==> !IsStory(s)
    ensures s.item.kind == StoryKind && |s.item.url| > 0 ==> IsStory(s)
  {
  }

  /** Host derivation on a "www." host, a plain subdomain and an unparsable link. */
  lemma HostExamples(it: Item)
    ensures ParseHnItem(it, _ => Some("www.example.com")).host == "example.com"
    ensures ParseHnItem(it, _ => Some("sub.example.com")).host == "sub.example.com"
    ensures ParseHnItem(it, _ => None).host == ""
  {
  }
}

=== FILE: top_stories.dfy ===
/** The over-fetch resolver of main.go (getTopStories): as written, and
    corrected. */
module TopStories {
  import opened Wrappers
  import opened Hn
  import opened Stories
  import opened Aggregate

  /** Why a resolution yields no stories. SliceOutOfRange stands for the
      runtime panic of an out-of-range slice expression. */
  datatype Failure = TopItemsFailed | SliceOutOfRange | InsufficientStories

  /** The resolver's state between rounds: the read cursor into the id list
      and the stories accumulated so far. */
  datatype Cursor = Cursor(at: nat, stories: seq<Story>)

  /** Over-fetch window for the stories still missing: five quarters of the
      shortfall, rounded down. It never falls below the shortfall, so every
      round moves the cursor forward. */
  function Need(numStories: int, have: int): (need: int)
    requires have < numStories
    ensures numStories - have <= need
    ensures need >= 1
  {
    (numStories - have) * 5 / 4
  }

  /** The loop of getTopStories as written: a window that runs past the end
      of the id list is a panic (the list's capacity is taken to be its
      length). */
  function OverFetchLoop(ids: seq<int>, up: Upstream, numStories: int, at: nat, stories: seq<Story>)
    : (r: Result<Cursor, Failure>)
    requires at <= |ids|
    ensures |stories| >= numStories ==> r == Ok(Cursor(at, stories))
    ensures r.Err? ==> r.error == SliceOutOfRange
    ensures r.Ok? ==> at <= r.value.at <= |ids| && |r.value.stories| >= numStories
    ensures r.Ok? && |stories| < numStories ==> at < r.value.at
    ensures r.Ok? && stories == StoriesOf(ids[..at], up) ==>
      r.value.stories == StoriesOf(ids[..r.value.at], up)
    decreases |ids| - at
  {
    if |stories| >= numStories then Ok(Cursor(at, stories))
    else
      var need := Need(numStories, |stories|);
      if at + need > |ids| then Err(SliceOutOfRange)
      else
        assert ids[..at + need] == ids[..at] + ids[at..at + need];
        StoriesOfConcat(ids[..at], ids[at..at + need], up);
        OverFetchLoop(ids, up, numStories, at + need, stories + StoriesOf(ids[at..at + need], up))
  }

  /** Started at cursor `at` holding `stories`, the loop reaches cursor
      `c`: each window before it was taken short of stories and fitted in
      the list. */
  predicate Reaches(ids: seq<int>, up: Upstream, numStories: int, at: nat, stories: seq<Story>, c: int)
    requires at <= |ids|
    decreases |ids| - at
  {
    || c == at
    || (&& |stories| < numStories
        && at + Need(numStories, |stories|) <= |ids|
        && Reaches(ids, up, numStories, at + Need(numStories, |stories|),
                   stories + StoriesOf(ids[at..at + Need(numStories, |stories|)], up), c))
  }

  /** The loop reaches cursor `c` still short of `numStories` stories, and
      the next window runs past the end of the list. */
  predicate PanicsAt(ids: seq<int>, up: Upstream, numStories: int, at: nat, stories: seq<Story>, c: int) {
    && at <= c <= |ids|
    && Reaches(ids, up, numStories, at, stories, c)
    && |stories| + |StoriesOf(ids[at..c], up)| < numStories
    && c + Need(numStories, |stories| + |StoriesOf(ids[at..c], up)|) > |ids|
  }

  /** The loop panics only at a cursor it reaches short of stories, whose
      next window overruns the list. */
  lemma {:induction false} OverFetchPanicWitness(ids: seq<int>, up: Upstream, numStories: int, at: nat, stories: seq<Story>)
    requires at <= |ids|
    requires OverFetchLoop(ids, up, numStories, at, stories).Err?
    ensures exists c :: PanicsAt(ids, up, numStories, at, stories, c)
    decreases |ids| - at
  {
    assert |stories| < numStories;
    var need := Need(numStories, |stories|);
    if at + need > |ids| {
      assert ids[at..at] == [];
      assert PanicsAt(ids, up, numStories, at, stories, at);
    } else {
      var next := stories + StoriesOf(ids[at..at + need], up);
      OverFetchPanicWitness(ids, up, numStories, at + need, next);
      var c :| PanicsAt(ids, up, numStories, at + need, next, c);
      PanicsAtStep(ids, up, numStories, at, stories, c);
    }
  }

  /** A panic cursor reached after one fitting window is a panic cursor
      reached from before it. */
  lemma PanicsAtStep(ids: seq<int>, up: Upstream, numStories: int, at: nat, stories: seq<Story>, c: int)
    requires at <= |ids| && |stories| < numStories
    requires at + Need(numStories, |stories|) <= |ids|
    requires PanicsAt(ids, up, numStories, at + Need(numStories, |stories|),
                      stories + StoriesOf(ids[at..at + Need(numStories, |stories|)], up), c)
    ensures PanicsAt(ids, up, numStories, at, stories, c)
  {
    var mid := at + Need(numStories, |stories|);
    var next := stories + StoriesOf(ids[at..mid], up);
    WindowsAddUp(ids, up, at, mid, c, stories);
    var have := |stories| + |StoriesOf(ids[at..c], up)|;
    assert have == |next| + |StoriesOf(ids[mid..c], up)|;
    assert Reaches(ids, up, numStories, at, stories, c);
  }

  /** Stories counted over `ids[at..c]` are those over `ids[at..mid]` then
      `ids[mid..c]`. */
  lemma WindowsAddUp(ids: seq<int>, up: Upstream, at: nat, mid: nat, c: int, stories: seq<Story>)
    requires at <= mid <= c <= |ids|
    ensures |stories| + |StoriesOf(ids[at..c], up)|
         == |stories + StoriesOf(ids[at..mid], up)| + |StoriesOf(ids[mid..c], up)|
  {
    assert ids[at..c] == ids[at..mid] + ids[mid..c];
    StoriesOfConcat(ids[at..mid], ids[mid..c], up);
  }

  /** Capacity of the slice getStories returns. Nothing appended leaves a
      nil slice of capacity zero; otherwise the capacity is the length plus
      the spare room append's growth left, which is a parameter here. */
  function GrownCap(len: nat, spare: nat): (c: nat)
    ensures len <= c
    ensures len == 0 ==> c == 0
  {
    if len == 0 then 0 else len + spare
  }

  /** `n` zero-valued stories. */
  function ZeroPad(n: nat): (r: seq<Story>)
    ensures |r| == n
    ensures forall k :: 0 <= k < n ==> r[k] == ZeroStory
  {
    seq(n, _ => ZeroStory)
  }

  /** Go's `s[:n]` on a slice of length |s| and capacity `c`: in range iff
      0 <= n <= c; positions past the length hold zero values. */
  function Reslice(s: seq<Story>, c: nat, n: int): (r: Result<seq<Story>, Failure>)
    requires |s| <= c
    ensures r.Ok? <==> 0 <= n <= c
    ensures r.Err? ==> r.error == SliceOutOfRange
    ensures r.Ok? ==> |r.value| == n
    ensures r.Ok? ==> forall k :: 0 <= k < n && k < |s| ==> r.value[k] == s[k]
    ensures r.Ok? ==> forall k :: |s| <= k < n ==> r.value[k] == ZeroStory
  {
    if n < 0 || n > c then Err(SliceOutOfRange)
    else if n <= |s| then Ok(s[..n])
    else Ok(s + ZeroPad(n - |s|))
  }

  /** getTopStories as written: the loop's result is discarded, the first
      `numStories` ids are resolved again, and the result is resliced to
      `numStories` within its capacity. `spare` is the extra capacity
      append left in that result. */
  function GetTopStoriesAsWritten(up: Upstream, numStories: int, spare: nat): (r: Result<seq<Story>, Failure>)
    ensures up.topItems.None? ==> r == Err(TopItemsFailed)
    ensures up.topItems.Some? && r.Err? ==> r.error == SliceOutOfRange
    ensures r.Ok? ==> |r.value| == numStories
  {
    match up.topItems
    case None => Err(TopItemsFailed)
    case Some(ids) =>
      match OverFetchLoop(ids, up, numStories, 0, [])
      case Err(e) => Err(e)
      case Ok(_) =>
        if numStories < 0 || numStories > |ids| then Err(SliceOutOfRange)
        else
          var stories := StoriesOf(ids[..numStories], up);
          Reslice(stories, GrownCap(|stories|, spare), numStories)
  }

  /** The first window holds the first `numStories` ids; when they all
      qualify it satisfies the loop at once. */
  lemma FirstWindowSuffices(ids: seq<int>, up: Upstream, numStories: int)
    requires 0 < numStories && Need(numStories, 0) <= |ids|
    requires forall i :: 0 <= i < numStories ==> Qualifies(up, ids[i])
    ensures |StoriesOf(ids[..Need(numStories, 0)], up)| >= numStories
  {
    var need := Need(numStories, 0);
    assert ids[..need] == ids[..numStories] + ids[numStories..need];
    StoriesOfConcat(ids[..numStories], ids[numStories..need], up);
    AllQualifyIff(ids[..numStories], up);
  }

  /** The loop ends after its first window when that window already holds
      `numStories` stories. */
  lemma FirstWindowEndsLoop(ids: seq<int>, up: Upstream, numStories: int)
    requires 0 < numStories && Need(numStories, 0) <= |ids|
    requires |StoriesOf(ids[..Need(numStories, 0)], up)| >= numStories
    ensures OverFetchLoop(ids, up, numStories, 0, []).Ok?
  {
  }

  /** The first `numStories` ids are each fetched and a story exactly when
      resolving them again loses nothing. */
  lemma PrefixQualifiesIff(ids: seq<int>, up: Upstream, numStories: nat)
    requires numStories <= |ids|
    ensures |StoriesOf(ids[..numStories], up)| == numStories <==>
      forall i :: 0 <= i < numStories ==> Qualifies(up, ids[i])
  {
    AllQualifyIff(ids[..numStories], up);
    assert forall i :: 0 <= i < numStories ==> ids[..numStories][i] == ids[i];
  }

  /** When the first window fits and the first `numStories` ids all
      qualify, the code as written returns their stories. */
  lemma AsWrittenSucceeds(up: Upstream, ids: seq<int>, numStories: int, spare: nat)
    requires up.topItems == Some(ids)
    requires 0 <= numStories && numStories * 5 / 4 <= |ids|
    requires forall i :: 0 <= i < numStories ==> Qualifies(up, ids[i])
    ensures GetTopStoriesAsWritten(up, numStories, spare) == Ok(StoriesOf(ids[..numStories], up))
  {
    PrefixQualifiesIff(ids, up, numStories);
    var stories := StoriesOf(ids[..numStories], up);
    assert stories[..numStories] == stories;
    if numStories > 0 {
      FirstWindowSuffices(ids, up, numStories);
      FirstWindowEndsLoop(ids, up, numStories);
    }
  }

  /** When the re-resolved prefix has fewer stories than wanted and its
      capacity does not reach `numStories`, the code as written panics. With
      no spare capacity that is every prefix holding a non-story. */
  lemma AsWrittenFailsBeyondCapacity(up: Upstream, ids: seq<int>, numStories: int, spare: nat)
    requires up.topItems == Some(ids)
    requires 0 <= numStories
    requires !(numStories <= |ids| && numStories <= GrownCap(|StoriesOf(ids[..numStories], up)|, spare))
    ensures GetTopStoriesAsWritten(up, numStories, spare).Err?
  {
  }

  /** getTopStories as written. A failed top-ids request gives that error.
      A success needs the first window to fit and `numStories` to be within
      the capacity of the re-resolved prefix, and returns that prefix's
      stories followed by zero-valued items up to `numStories`. It succeeds
      whenever the first window fits and the first `numStories` ids all
      qualify, and, with no spare capacity, only then. */
  lemma AsWrittenOutcome(up: Upstream, numStories: int, spare: nat)
    ensures up.topItems.None? ==> GetTopStoriesAsWritten(up, numStories, spare) == Err(TopItemsFailed)
    ensures var r := GetTopStoriesAsWritten(up, numStories, spare);
      r.Ok? ==>
        && up.topItems.Some?
        && 0 <= numStories <= |up.topItems.value|
        && numStories * 5 / 4 <= |up.topItems.value|
        && var stories := StoriesOf(up.topItems.value[..numStories], up);
        && |stories| <= numStories <= GrownCap(|stories|, spare)
        && r.value == stories + ZeroPad(numStories - |stories|)
    ensures
      && up.topItems.Some?
      && 0 <= numStories
      && numStories * 5 / 4 <= |up.topItems.value|
      && (forall i :: 0 <= i < numStories ==> Qualifies(up, up.topItems.value[i]))
      ==> GetTopStoriesAsWritten(up, numStories, spare) == Ok(StoriesOf(up.topItems.value[..numStories], up))
    ensures spare == 0 ==>
      (GetTopStoriesAsWritten(up, numStories, spare).Ok? <==>
        && up.topItems.Some?
        && 0 <= numStories
        && numStories * 5 / 4 <= |up.topItems.value|
        && forall i :: 0 <= i < numStories ==> Qualifies(up, up.topItems.value[i]))
  {
    if up.topItems.Some? && 0 <= numStories {
      var ids := up.topItems.value;
      var r := GetTopStoriesAsWritten(up, numStories, spare);
      if numStories <= |ids| {
        PrefixQualifiesIff(ids, up, numStories);
        var stories := StoriesOf(ids[..numStories], up);
        if r.Ok? {
          assert r.value == stories + ZeroPad(numStories - |stories|);
        }
      }
      if numStories * 5 / 4 <= |ids| && forall i :: 0 <= i < numStories ==> Qualifies(up, ids[i]) {
        AsWrittenSucceeds(up, ids, numStories, spare);
      }
    }
  }

  /** The intended loop: windows are clipped to the end of the id list, and
      the loop stops once the list is used up. */
  function FillLoop(ids: seq<int>, up: Upstream, numStories: int, at: nat, stories: seq<Story>): (c: Cursor)
    requires at <= |ids|
    ensures at <= c.at <= |ids|
    ensures |c.stories| < numStories ==> c.at == |ids|
    ensures stories == StoriesOf(ids[..at], up) ==> c.stories == StoriesOf(ids[..c.at], up)
    decreases |ids| - at
  {
    if |stories| >= numStories || at == |ids| then Cursor(at, stories)
    else
      var need := Need(numStories, |stories|);
      var end := if at + need <= |ids| then at + need else |ids|;
      assert ids[..end] == ids[..at] + ids[at..end];
      StoriesOfConcat(ids[..at], ids[at..end], up);
      FillLoop(ids, up, numStories, end, stories + StoriesOf(ids[at..end], up))
  }

  /** getTopStories as intended: the first `numStories` qualifying stories of
      the whole id list, in ranking order, or InsufficientStories when the
      list holds fewer. */
  function GetTopStories(up: Upstream, numStories: int): (r: Result<seq<Story>, Failure>)
    ensures up.topItems.None? ==> r == Err(TopItemsFailed)
    ensures r.Ok? <==> up.topItems.Some? && 0 <= numStories <= |StoriesOf(up.topItems.value, up)|
    ensures r.Ok? ==> |r.value| == numStories
    ensures r.Ok? ==> r.value == StoriesOf(up.topItems.value, up)[..numStories]
    ensures r.Err? && up.topItems.Some? && 0 <= numStories ==> r.error == InsufficientStories
  {
    match up.topItems
    case None => Err(TopItemsFailed)
    case Some(ids) =>
      if numStories < 0 then Err(SliceOutOfRange)
      else
        assert ids[..0] == [];
        var c := FillLoop(ids, up, numStories, 0, []);
        assert ids == ids[..c.at] + ids[c.at..];
        StoriesOfConcat(ids[..c.at], ids[c.at..], up);
        if |c.stories| < numStories then Err(InsufficientStories)
        else Ok(c.stories[..numStories])
  }

  /** A loop that ends without a panic has seen `numStories` stories, so
      the whole list holds at least that many. */
  lemma LoopSuccessBoundsStories(ids: seq<int>, up: Upstream, numStories: int)
    requires OverFetchLoop(ids, up, numStories, 0, []).Ok?
    ensures numStories <= |StoriesOf(ids, up)|
  {
    var c := OverFetchLoop(ids, up, numStories, 0, []).value;
    assert ids[..0] == [];
    assert ids == ids[..c.at] + ids[c.at..];
    StoriesOfConcat(ids[..c.at], ids[c.at..], up);
  }

  /** The stories of a prefix are a prefix of the stories of the list. */
  lemma PrefixStories(ids: seq<int>, up: Upstream, n: nat)
    requires n <= |ids|
    ensures |StoriesOf(ids[..n], up)| <= |StoriesOf(ids, up)|
    ensures StoriesOf(ids, up)[..|StoriesOf(ids[..n], up)|] == StoriesOf(ids[..n], up)
  {
    assert ids == ids[..n] + ids[n..];
    StoriesOfConcat(ids[..n], ids[n..], up);
  }

  /** Wherever the code as written succeeds, the corrected resolver
      succeeds too, and the two agree exactly when no zero-valued padding
      was needed: when the first `numStories` ids all qualify. */
  lemma CorrectedAgreesWhereAsWrittenSucceeds(up: Upstream, numStories: int, spare: nat)
    requires GetTopStoriesAsWritten(up, numStories, spare).Ok?
    ensures GetTopStories(up, numStories).Ok?
    ensures GetTopStories(up, numStories) == GetTopStoriesAsWritten(up, numStories, spare) <==>
      forall i :: 0 <= i < numStories ==> Qualifies(up, up.topItems.value[i])
  {
    var ids := up.topItems.value;
    var r := GetTopStoriesAsWritten(up, numStories, spare).value;
    var stories := StoriesOf(ids[..numStories], up);
    assert 0 <= numStories <= |ids| && r == stories + ZeroPad(numStories - |stories|) by {
      AsWrittenOutcome(up, numStories, spare);
    }
    LoopSuccessBoundsStories(ids, up, numStories);
    var fixed := StoriesOf(ids, up)[..numStories];
    assert GetTopStories(up, numStories) == Ok(fixed);
    PrefixQualifiesIff(ids, up, numStories);
    if |stories| < numStories {
      assert r[numStories - 1] == ZeroStory;
      assert fixed[numStories - 1] in StoriesOf(ids, up);
      assert r != fixed;
    } else {
      PrefixStories(ids, up, numStories);
      assert r == stories;
    }
  }

  /** Line 97 throws away the loop's stories: when the top-ranked id is not
      a story (a job posting, say), the next one is, and one story is
      wanted, the loop finds that story, yet the re-resolved prefix is a nil
      slice and the code panics; the corrected resolver returns the story. */
  lemma RecomputedPrefixDropsLoopResult(up: Upstream, first: int, second: int, spare: nat)
    requires up.topItems == Some([first, second])
    requires !Qualifies(up, first) && Qualifies(up, second)
    ensures GetTopStoriesAsWritten(up, 1, spare).Err?
    ensures GetTopStories(up, 1) == Ok([Fetch(up, second).value])
  {
    var ids := up.topItems.value;
    assert ids[..1] == [first] && [first][..0] == [];
    assert StoriesOf([first], up) == [];
    assert StoriesOf(ids, up) == [Fetch(up, second).value];
    assert StoriesOf(ids, up)[..1] == StoriesOf(ids, up);
  }

  /** Line 98 reslices past the length: when the first window supplies
      enough stories but the first `numStories` ids do not, and append left
      enough capacity, the code returns a page ending in a zero-valued item
      that is not a story; the corrected resolver returns only stories.
      Five ids whose second is a job posting, with four wanted, give this
      when the three re-resolved stories sit in a slice of capacity four. */
  lemma ZeroPaddedPage(up: Upstream, ids: seq<int>, numStories: int, spare: nat)
    requires up.topItems == Some(ids)
    requires 0 < numStories && numStories * 5 / 4 <= |ids|
    requires |StoriesOf(ids[..numStories * 5 / 4], up)| >= numStories
    requires |StoriesOf(ids[..numStories], up)| < numStories
    requires numStories <= GrownCap(|StoriesOf(ids[..numStories], up)|, spare)
    ensures GetTopStoriesAsWritten(up, numStories, spare).Ok?
    ensures GetTopStoriesAsWritten(up, numStories, spare).value[numStories - 1] == ZeroStory
    ensures !IsStory(GetTopStoriesAsWritten(up, numStories, spare).value[numStories - 1])
    ensures GetTopStories(up, numStories).Ok?
    ensures forall s :: s in GetTopStories(up, numStories).value ==> IsStory(s)
  {
    FirstWindowEndsLoop(ids, up, numStories);
    var need := numStories * 5 / 4;
    assert ids == ids[..need] + ids[need..];
    StoriesOfConcat(ids[..need], ids[need..], up);
    var all := StoriesOf(ids, up);
    assert forall s :: s in all[..numStories] ==> s in all;
  }

  /** Line 94 slices five quarters of the shortfall unclipped: when every id
      is a story and the list, with no capacity past its length, is shorter
      than the first window (four wanted from four ids, say), the code
      panics, while the corrected resolver returns the first `numStories`
      stories. */
  lemma WindowOverrunsShortList(up: Upstream, ids: seq<int>, numStories: int, spare: nat)
    requires up.topItems == Some(ids)
    requires 0 <= numStories <= |ids| < numStories * 5 / 4
    requires forall i :: 0 <= i < |ids| ==> Qualifies(up, ids[i])
    ensures GetTopStoriesAsWritten(up, numStories, spare).Err?
    ensures GetTopStories(up, numStories).Ok?
    ensures |GetTopStories(up, numStories).value| == numStories
  {
    AllQualifyIff(ids, up);
  }
}

=== FILE: wrappers.dfy ===
/** Failure-carrying wrappers shared by the whole model. */
module Wrappers {

  /** A value that may be missing: a failed library call or network fetch. */
  datatype Option<+T> = None | Some(value: T)

  /** Either a computed value or the reason it could not be computed. */
  datatype Result<+T, +E> = Ok(value: T) | Err(error: E)
}
